=== FILE: README.md ===
# Payment-session state machine of the Neymar skill-check server

The server sells a one-off "Neymar skill check". A customer opens a Stripe
checkout. The server then learns of the payment in one of two ways: Stripe's
webhook (`POST /webhook/stripe`), or the result page polling
`GET /api/payment-status/:sessionId`, which asks Stripe directly while the
session is still pending. Once the session is completed,
`GET /check-neymar-skill` reveals the random outcome (`hasSkill`).

This project models that core as immutable data and pure step functions:

- `Sessions` is the in-memory table `paymentSessions`. It files one shared
  `PaymentSession` object under two keys: the Stripe session id and the
  generated unique id. The model splits it into an alias index
  (`map<string, RecId>`) and a record table (`map<RecId, Session>`). A write to
  the shared object is a write to one record, and both keys see it. The
  module also holds session creation and the checkout route's reply.
- `Webhook` models the verified-or-rejected delivery, the switch on the event
  type, and the four handlers.
- `PostPayment` decides which post-payment actions run: email, front-end
  notification, analytics, and unlock.
- `StatusPoll` models the poll route. It is cut at its one real suspension
  point, Stripe's `retrieve`. `PollBegin` is the lookup before it. `PollResume`
  is the re-check after it, on the same object. `TimerFire` is the deferred
  completion that the poll's `setTimeout` schedules.
- `SkillCheck` models the `/check-neymar-skill` gate.
- `Server` puts all of this into one state: the table, the polls still waiting
  on Stripe, and the armed timers. Any interleaving of requests, Stripe answers
  and timer firings is then a sequence of `Event`s. The module proves an
  invariant that every event preserves.

Each external input is a parameter of a step function:

- Stripe's answers: checkout created or failed; signature verified or
  rejected; paid, not paid, or error.
- `Math.random() > 0.5`, as `coin`.
- `new Date()`, as `now`.
- `uuidv4()`, as `uniqueId`.
- The firing of a `setTimeout`, as the event `TimerFires`.

Three of the writers in the code do not read the status before they write:

- The completed-checkout handler sets `completed`, a new completion time and a
  new outcome, whatever the status was.
- The expired-checkout handler sets `expired`, whatever the status was.
- The poll's timer sets `completed` and a new completion time, whatever the
  status is when it fires.

So a replayed or late event overwrites what an earlier one wrote. A second
completed-checkout delivery draws a new outcome
(`Webhook.ReplayRedraws`), and a completed-checkout delivery after an expiry
completes the session (`Webhook.CompletionOverridesExpiry`). The one writer
that does read the status is the poll. After its suspension it checks that the
session is still pending before it writes. That guard is proved:
`StatusPoll.LateResumeIsNoOp`, `StatusPoll.AtMostOneResumeWins` and
`Server.NoSecondTimer`.

The declared status union in the code lists `pending | completed | expired`,
but the poller assigns `"processing"`. `Status` includes `Processing`. No code
path produces a `failed` status, so the model has none.

Two handlers suspend on a real gateway call, and the model treats them
differently:

- `POST /create-checkout-session` waits on Stripe's checkout creation, then
  writes the table. It is one `Checkout` event, taken at the moment the call
  returns. This is sound because before the wait the handler only draws the
  unique id and touches no shared state.
- The status poll reads the table before its wait on Stripe's `retrieve` and
  writes it after. So it is two events, and other events can come in between.

A webhook delivery after its signature check is one atomic step. Every helper it
awaits is a stub that resolves at once, so no other request or timer can run in
between.

## Model

| member | source | states |
|---|---|---|
| `Sessions.Put` | src/app.ts:284-288 | an in-place write (here the poll's; the webhook handlers write the same way at lines 401-403 and 420, on the object that lines 64-65 file under both keys) changes exactly one object: it holds the written session afterwards and every other object is unchanged; the write is seen through every key bound to that object, and every other key reads what it read before; keys and record ids are untouched |
| `Sessions.AliasVisibility` | src/app.ts:64-65 | after a write through one key, a second key bound to the same object reads the written session, the same as the first key |
| `Sessions.Create` | src/app.ts:56-65 | creation binds the Stripe id and the unique id to one fresh object that no earlier key shared; the object is pending, with no outcome and no completion time, and carries the creation time and email; no other key and no existing object changes |
| `Sessions.CreateCheckout` | src/app.ts:36-79 | a failed gateway call answers 500 and stores nothing; a successful one answers with both ids, and both ids are bound to one fresh object that no earlier record used, which holds the new pending session; no other key and no existing object changes |
| `PostPayment.Actions` | src/app.ts:438-469 | exactly these actions run, in this order: the email if an address is present, then notify, then analytics, then unlock exactly when the outcome is true; the email goes to the gateway's customer email if present, else the stored one; no email is sent when both are absent or empty |
| `Webhook.CheckoutCompleted` | src/app.ts:391-413 | unknown id: table unchanged, no actions; known id: the object becomes completed with the given time and outcome, whatever its prior status; its identity fields are kept; the change is visible through every alias; no other key and no other object changes; the post-payment actions run for the updated object, and unlock runs exactly when the outcome is true |
| `Webhook.CheckoutExpired` | src/app.ts:415-422 | unknown id: table unchanged; known id: only the status changes, to expired, whatever it was; no other key and no other object changes |
| `Webhook.Dispatch` | src/app.ts:360-385 | a completed-checkout event has exactly the completed handler's effect, and an expired-checkout event the expired handler's; every other type leaves the table unchanged and runs no actions; actions run only for a completed-checkout event on a known session |
| `Webhook.HandleWebhook` | src/app.ts:340-432 | the reply is 400 exactly when the signature is rejected, and then no handler runs and the table is unchanged; every verified delivery is acknowledged; a verified delivery has exactly the dispatcher's effect, so unrecognised types change nothing; a verified completed-checkout delivery for a known session leaves it completed with the given time and draw, and runs exactly the post-payment actions of the updated session; a verified expired-checkout delivery for a known session sets only its status, to expired; payment-intent events and unknown ids leave the table unchanged |
| `Webhook.ReplayRedraws` | src/app.ts:401-403 | a replayed completed-checkout event overwrites the outcome and the completion time and reruns the actions |
| `Webhook.CompletionOverridesExpiry` | src/app.ts:394-421 | a completed-checkout event after an expiry leaves the session completed |
| `StatusPoll.PollBegin` | src/app.ts:266-274 | 404 exactly for an unknown key; the handler waits on the gateway exactly when the session is pending; it holds the object the key referred to |
| `StatusPoll.PollResume` | src/app.ts:274-294 | a timer is armed exactly when the gateway says paid and the held object is still pending; then only status becomes processing and the outcome becomes the draw, with completion time and identity kept and other objects untouched; otherwise nothing changes |
| `StatusPoll.TimerFire` | src/app.ts:286-289 | the object becomes completed with the given time whatever its status, keeps its outcome and identity; keys, record ids and the next fresh id are unchanged, and every other object is unchanged |
| `StatusPoll.Poll` | src/app.ts:261-302 | an uninterrupted poll answers 404 for an unknown key and leaves a non-pending or unpaid session unchanged, answering its current view; for a pending paid session it answers processing with the draw, and that answer is what the key now reads; in that case no key is rebound, the session keeps its identity fields, no other object changes, every other key reads as before, and every key bound to the session reads the new state; a timer is armed exactly in that case |
| `StatusPoll.LateResumeIsNoOp` | src/app.ts:279-282 | if the held object leaves pending while the gateway call is outstanding, the resumed poll changes nothing and arms no timer |
| `StatusPoll.AtMostOneResumeWins` | src/app.ts:279-285 | of two polls resumed on one object, at most one arms a timer |
| `SkillCheck.Gate` | src/app.ts:311-333 | 404 exactly when the id finds no session; 400 with the current status exactly when the session is not completed; otherwise the stored outcome |
| `SkillCheck.Writes` | src/app.ts:304-333 | a missing or empty id writes 400 and then falls through to a second write, the lookup's reply; a present id writes exactly once, the lookup's reply |
| `SkillCheck.CheckSkill` | src/app.ts:304-333 | the client gets 400 for a missing id exactly when the id is absent or empty; otherwise 404, 400 with status, or the stored outcome, exactly as the session's presence and status say |
| `Server.StepPreservesInv` | src/app.ts:29-432 | every event preserves the invariant: keys resolve; pending means no outcome and no time; processing means an outcome and no time; completed means both; waiting polls hold existing objects; armed timers name distinct, non-pending objects that have an outcome |
| `Server.CheckoutPreservesInv` | src/app.ts:56-65 | checkout creation keeps the invariant |
| `Server.WebhookPreservesInv` | src/app.ts:391-422 | webhook deliveries keep the invariant |
| `Server.PutPreservesInv` | src/app.ts:284-288 | an in-place write of a well-formed session keeps the invariant, as long as it does not make an object with an armed timer pending or drop its outcome |
| `Server.DropPollPreservesInv` | src/app.ts:275-278 | forgetting a poll whose Stripe call has returned keeps the invariant |
| `Server.ArmTimerPreservesInv` | src/app.ts:286-289 | arming a timer for a non-pending object that has an outcome and no timer yet keeps the invariant |
| `Server.DropTimerPreservesInv` | src/app.ts:286-289 | forgetting a timer that has fired keeps the invariant |
| `Server.ResumePreservesInv` | src/app.ts:279-289 | a resumed poll keeps the invariant; in particular it never arms a second timer for one object |
| `Server.TimerPreservesInv` | src/app.ts:286-289 | a firing timer keeps the invariant |
| `Server.RunPreservesInv` | src/app.ts:29-432 | the invariant holds after any sequence of events |
| `Server.RevealedOutcomeIsDrawn` | src/app.ts:320-333 | in every reachable state, a skill check that passes the gate reveals a defined outcome |
| `Server.CompletedViewIsStamped` | src/app.ts:296-300 | a status reply that says completed always carries an outcome and a completion time |
| `Server.NoSecondTimer` | src/app.ts:279-289 | a Stripe answer for an object that already has an armed timer changes nothing |
| `Server.TimersDistinct` | src/app.ts:284-289 | in every reachable state, the armed timers name distinct objects |

## Left out

- HTML and script bodies of `/result` and `/` (src/app.ts:82-259, 552-586): page rendering; the polling loop runs in the browser.
- Stripe SDK calls (checkout creation, `retrieve`, `constructEvent`): network and cryptography, taken only as their outcome (id or failure; paid, not paid, or error; verified or rejected).
- `Math.random`, `new Date()`, `uuidv4()` and the timer's 1000 ms delay: passed in as `coin`, `now`, `uniqueId`, and the `TimerFires` event. A `TimerFires` event can happen at any point.
- Console logging and the bodies of the email, websocket, analytics and JWT stubs (src/app.ts:462-525): only the decision of which action runs is kept.
- Admin and debug reads (src/app.ts:532-550): read-only, so they change nothing in the model. `/session/:sessionId` is a plain `Lookup`. `/admin/sessions` lists `paymentSessions.values()`, which holds one entry per key, so each session appears twice and `total` counts it twice. That listing is not modelled.
- Express setup and `app.listen` (src/app.ts:8-14, 588-606); `src/@types/index.d.ts`, a type augmentation with no logic.
- `user_id` and `product_type` metadata sent to Stripe: the server never reads them back.
- SkillCheck.Writes: the model stops at the two attempted writes; what follows is not modelled. For a missing or empty id, the second write (src/app.ts:316, 321 or 329) throws "headers already sent" inside the try. The 500 write in the catch (src/app.ts:336) then throws again, outside the try, so the handler's promise rejects. Express 4 leaves that rejection unhandled. On Node 15 or later, an unhandled rejection ends the process by default, and the in-memory table is lost. Express 5 would pass the rejection to its error handler instead. src/app.ts does not pin the Express or Node version. The `SkillQuery` event of `Server` assumes the process survives with its table intact.
- The 500 branch of `/check-neymar-skill` (src/app.ts:334-337) for a present id: nothing in its try block can throw then.
- A `failed` status: no code path assigns it, and `payment_intent.payment_failed` only logs.
- Real concurrency: interleavings are sequences of events. A webhook delivery after verification is one atomic step, because its awaited helpers resolve at once.

=== FILE: poll.dfy ===
/** `GET /api/payment-status/:sessionId`, the client-poll reconciliation.

    The handler suspends once, on the gateway's `retrieve` call, so it is split
    into the part before the suspension (`PollBegin`: look the session up and
    decide whether to ask the gateway) and the part after (`PollResume`: read
    the status again on the SAME object and act on the gateway's answer). The
    deferred completion the poller schedules is a separate step, `TimerFire`.
    The gateway's answer, the random draw and the clock are parameters.
 */
module StatusPoll {
  import opened Sessions

  /** The gateway's answer to `retrieve`: paid, anything else, or a thrown error. */
  datatype GatewayAnswer = Paid | NotPaid | GatewayError

  /** What the handler does before its suspension point. */
  datatype PollStart =
    | UnknownSession                // answers 404
    | AnswerNow(rid: RecId)         // not pending: answers at once
    | AwaitGateway(rid: RecId)      // pending: calls the gateway, holding the object

  datatype StatusReply =
    | StatusNotFound404
    | StatusBody(status: Status, hasSkill: Option<bool>, completedAt: Option<Time>)

  datatype Resumed = Resumed(store: Store, timerArmed: bool)

  datatype PollResult = PollResult(store: Store, reply: StatusReply, timer: Option<RecId>)

  /** The JSON body the route answers with, read from the object. */
  function View(s: Session): StatusReply {
    StatusBody(s.status, s.hasSkill, s.completedAt)
  }

  function PollBegin(st: Store, key: string): (p: PollStart)
    ensures p.UnknownSession? <==> Lookup(st, key).None?
    ensures p.AwaitGateway? <==> Lookup(st, key).Some? && Lookup(st, key).value.status == Pending
    ensures !p.UnknownSession? ==> key in st.aliases && p.rid == st.aliases[key] && p.rid in st.records
  {
    match Lookup(st, key)
    case None => UnknownSession
    case Some(ps) => if ps.status == Pending then AwaitGateway(st.aliases[key]) else AnswerNow(st.aliases[key])
  }

  /** After the gateway answers. Only a paid answer on an object that is
      STILL pending moves it to processing, draws the outcome and arms the
      completion timer; any other status, an unpaid answer or an error leaves
      the table as it was. */
  function PollResume(st: Store, rid: RecId, answer: GatewayAnswer, coin: bool): (r: Resumed)
    requires rid in st.records
    ensures Valid(st) ==> Valid(r.store)
    ensures r.timerArmed <==> answer == Paid && st.records[rid].status == Pending
    ensures !r.timerArmed ==> r.store == st
    ensures r.timerArmed ==>
      && r.store.aliases == st.aliases
      && r.store.records.Keys == st.records.Keys
      && rid in r.store.records
      && r.store.records[rid].status == Processing
      && r.store.records[rid].hasSkill == Some(coin)
      && r.store.records[rid].completedAt == st.records[rid].completedAt
      && SameIdentity(r.store.records[rid], st.records[rid])
      && (forall q | q in st.records && q != rid :: q in r.store.records && r.store.records[q] == st.records[q])
  {
    var ps := st.records[rid];
    if answer == Paid && ps.status == Pending then
      Resumed(Put(st, rid, ps.(status := Processing, hasSkill := Some(coin))), true)
    else
      Resumed(st, false)
  }

  /** The deferred step the poller armed: completes the object whatever its
      status is by then, stamps the time, and keeps the outcome already drawn. */
  function TimerFire(st: Store, rid: RecId, now: Time): (st': Store)
    requires rid in st.records
    ensures Valid(st) ==> Valid(st')
    ensures st'.aliases == st.aliases && rid in st'.records
    ensures st'.records.Keys == st.records.Keys && st'.next == st.next
    ensures st'.records[rid].status == Completed
    ensures st'.records[rid].completedAt == Some(now)
    ensures st'.records[rid].hasSkill == st.records[rid].hasSkill
    ensures SameIdentity(st'.records[rid], st.records[rid])
    ensures forall q | q in st.records && q != rid :: q in st'.records && st'.records[q] == st.records[q]
  {
    Put(st, rid, st.records[rid].(status := Completed, completedAt := Some(now)))
  }

  /** One poll whose gateway call returns before anything else happens. */
  function Poll(st: Store, key: string, answer: GatewayAnswer, coin: bool): (r: PollResult)
    ensures Valid(st) ==> Valid(r.store)
    ensures Lookup(st, key).None? ==> r == PollResult(st, StatusNotFound404, None)
    ensures Lookup(st, key).Some? && Lookup(st, key).value.status != Pending ==>
      r == PollResult(st, View(Lookup(st, key).value), None)
    ensures Lookup(st, key).Some? && Lookup(st, key).value.status == Pending && answer != Paid ==>
      r == PollResult(st, View(Lookup(st, key).value), None)
    ensures Lookup(st, key).Some? && Lookup(st, key).value.status == Pending && answer == Paid ==>
      && r.timer == Some(st.aliases[key])
      && r.reply == StatusBody(Processing, Some(coin), Lookup(st, key).value.completedAt)
      && Lookup(r.store, key).Some?
      && r.reply == View(Lookup(r.store, key).value)
      && r.store.aliases == st.aliases
      && r.store.records.Keys == st.records.Keys
      && (forall q | q in st.records && q != st.aliases[key] :: r.store.records[q] == st.records[q])
      && SameIdentity(Lookup(r.store, key).value, Lookup(st, key).value)
      && (forall k | !(k in st.aliases && st.aliases[k] == st.aliases[key]) ::
            Lookup(r.store, k) == Lookup(st, k))
      && (forall k | k in st.aliases && st.aliases[k] == st.aliases[key] ::
            Lookup(r.store, k) == Lookup(r.store, key))
    ensures r.timer.Some? <==> Lookup(st, key).Some? && Lookup(st, key).value.status == Pending && answer == Paid
  {
    match PollBegin(st, key)
    case UnknownSession => PollResult(st, StatusNotFound404, None)
    case AnswerNow(rid) => PollResult(st, View(st.records[rid]), None)
    case AwaitGateway(rid) =>
      var r := PollResume(st, rid, answer, coin);
      PollResult(r.store, View(r.store.records[rid]), if r.timerArmed then Some(rid) else None)
  }

  /** The re-check after the suspension: when a completed-checkout delivery
      (or anything else that moves the object off pending) lands while the
      gateway call is outstanding, the resumed poll does nothing. */
  lemma LateResumeIsNoOp(st: Store, key: string, s: Session, answer: GatewayAnswer, coin: bool)
    requires Valid(st) && PollBegin(st, key).AwaitGateway?
    requires s.status != Pending
    ensures var rid := PollBegin(st, key).rid;
            var st1 := Put(st, rid, s);
            PollResume(st1, rid, answer, coin) == Resumed(st1, false)
  {
  }

  /** Two polls that both suspended while the object was pending: however the
      gateway answers, at most one of them arms a timer and draws the outcome. */
  lemma AtMostOneResumeWins(st: Store, rid: RecId, a1: GatewayAnswer, c1: bool, a2: GatewayAnswer, c2: bool)
    requires Valid(st) && rid in st.records
    ensures var r1 := PollResume(st, rid, a1, c1);
            !(r1.timerArmed && PollResume(r1.store, rid, a2, c2).timerArmed)
  {
  }
}

=== FILE: postpayment.dfy ===
/** The post-payment fan-out that runs after a completed-checkout event.

    The actions themselves are stubs in the server (they only log); what the
    model keeps is the decision of which of them run, in which order, and with
    which arguments.
 */
module PostPayment {
  import opened Sessions

  datatype Action =
    | SendResultEmail(to: string)
    | NotifyFrontend(sessionId: string)
    | LogAnalytics(sessionId: string)
    | UnlockSpecialContent(sessionId: string)

  /** JavaScript truthiness of an optional string: absent and "" are falsy. */
  predicate Present(o: Option<string>) {
    o.Some? && o.value != ""
  }

  /** `customer_details?.email || customer_email`, kept only when truthy. */
  function ResultEmail(detailsEmail: Option<string>, storedEmail: Option<string>): Option<string> {
    if Present(detailsEmail) then detailsEmail
    else if Present(storedEmail) then storedEmail
    else None
  }

  /** The email step: sends only when an address is present. */
  function EmailStep(s: Session, detailsEmail: Option<string>): seq<Action> {
    match ResultEmail(detailsEmail, s.customerEmail)
    case None => []
    case Some(to) => [SendResultEmail(to)]
  }

  /** The actions run for session `s` (already marked completed), given the
      email the gateway reported for the customer. */
  function Actions(s: Session, detailsEmail: Option<string>): (acts: seq<Action>)
    ensures UnlockSpecialContent(s.stripeSessionId) in acts <==> s.hasSkill == Some(true)
    ensures forall i | 0 <= i < |acts| :: acts[i].UnlockSpecialContent? ==> s.hasSkill == Some(true)
    ensures NotifyFrontend(s.stripeSessionId) in acts && LogAnalytics(s.stripeSessionId) in acts
    ensures forall i | 0 <= i < |acts| && acts[i].SendResultEmail? ::
      i == 0 && acts[i].to != "" && Some(acts[i].to) == ResultEmail(detailsEmail, s.customerEmail)
    ensures !Present(detailsEmail) && !Present(s.customerEmail) ==>
      forall i | 0 <= i < |acts| :: !acts[i].SendResultEmail?
    ensures Present(detailsEmail) ==> acts[0] == SendResultEmail(detailsEmail.value)
    ensures !Present(detailsEmail) && Present(s.customerEmail) ==>
      acts[0] == SendResultEmail(s.customerEmail.value)
    ensures |acts| == |EmailStep(s, detailsEmail)| + 2 + (if s.hasSkill == Some(true) then 1 else 0)
    ensures |EmailStep(s, detailsEmail)| == (if ResultEmail(detailsEmail, s.customerEmail).Some? then 1 else 0)
    ensures var e := |EmailStep(s, detailsEmail)|;
      && acts[e] == NotifyFrontend(s.stripeSessionId)
      && acts[e + 1] == LogAnalytics(s.stripeSessionId)
      && (s.hasSkill == Some(true) ==> acts[e + 2] == UnlockSpecialContent(s.stripeSessionId))
  {
    var tail := [NotifyFrontend(s.stripeSessionId), LogAnalytics(s.stripeSessionId)]
      + (if s.hasSkill == Some(true) then [UnlockSpecialContent(s.stripeSessionId)] else []);
    EmailStep(s, detailsEmail) + tail
  }
}

=== FILE: sessions.dfy ===
/** The in-memory session table of the payment server.

    The server keeps one `PaymentSession` object per checkout and files it under
    two keys: the gateway's checkout-session id and a generated unique id. Both
    keys hold a reference to the SAME object, so a write through one key is seen
    through the other. The model makes that sharing explicit: an alias index maps
    each key to a record id, and a record table maps record ids to sessions.
 */
module Sessions {

  datatype Option<+T> = None | Some(value: T)

  /** A clock reading (the server's `new Date()`), supplied by the caller. */
  type Time = int

  /** The identity of one shared session object. */
  type RecId = nat

  /** The session status. The code's declared union lists only pending,
      completed and expired, but the poller also assigns "processing". */
  datatype Status = Pending | Processing | Completed | Expired

  datatype Session = Session(
    id: string,                      // the generated unique id
    stripeSessionId: string,         // the gateway's checkout-session id
    status: Status,
    hasSkill: Option<bool>,          // the random outcome, once drawn
    createdAt: Time,
    completedAt: Option<Time>,
    customerEmail: Option<string>)

  datatype Store = Store(
    aliases: map<string, RecId>,     // every key the table answers to
    records: map<RecId, Session>,    // the shared session objects
    next: RecId)                     // the next unused record id

  /** Representation invariant: every key refers to an existing object, and
      `next` is fresh. */
  ghost predicate Valid(st: Store) {
    && (forall k | k in st.aliases :: st.aliases[k] in st.records)
    && (forall r | r in st.records :: r < st.next)
  }

  const Empty: Store := Store(map[], map[], 0)

  lemma EmptyValid()
    ensures Valid(Empty)
  {
  }

  /** `paymentSessions.get(key)`. */
  function Lookup(st: Store, key: string): Option<Session> {
    if key in st.aliases && st.aliases[key] in st.records
    then Some(st.records[st.aliases[key]])
    else None
  }

  /** The fields a session keeps for life: nothing in the server rewrites them. */
  predicate SameIdentity(a: Session, b: Session) {
    && a.id == b.id
    && a.stripeSessionId == b.stripeSessionId
    && a.createdAt == b.createdAt
    && a.customerEmail == b.customerEmail
  }

  /** The record built at checkout creation. */
  function NewSession(uniqueId: string, stripeId: string, email: Option<string>, now: Time): Session {
    Session(uniqueId, stripeId, Pending, None, now, None, email)
  }

  /** Writing to the shared object `rid` in place. Every key that refers to
      `rid` sees the new value; every other key sees what it saw before. */
  function Put(st: Store, rid: RecId, s: Session): (st': Store)
    requires rid in st.records
    ensures Valid(st) ==> Valid(st')
    ensures st'.aliases == st.aliases && st'.next == st.next
    ensures st'.records.Keys == st.records.Keys
    ensures st'.records[rid] == s
    ensures forall q | q in st.records && q != rid :: st'.records[q] == st.records[q]
    ensures forall k | k in st.aliases && st.aliases[k] == rid :: Lookup(st', k) == Some(s)
    ensures forall k | !(k in st.aliases && st.aliases[k] == rid) :: Lookup(st', k) == Lookup(st, k)
  {
    st.(records := st.records[rid := s])
  }

  /** Two keys that refer to one object stay in step under any in-place write:
      after the write through `k1`, reading through `k2` gives the same session. */
  lemma AliasVisibility(st: Store, k1: string, k2: string, s: Session)
    requires k1 in st.aliases && k2 in st.aliases && st.aliases[k1] == st.aliases[k2]
    requires st.aliases[k1] in st.records
    ensures Lookup(Put(st, st.aliases[k1], s), k2) == Some(s)
    ensures Lookup(Put(st, st.aliases[k1], s), k1) == Lookup(Put(st, st.aliases[k1], s), k2)
  {
  }

  /** Storing a new checkout: one fresh object filed under the gateway id and
      under the unique id. An earlier binding of either key is overwritten
      (the code does not check); no other key changes, and no existing object
      changes. */
  function Create(st: Store, stripeId: string, uniqueId: string, email: Option<string>, now: Time): (st': Store)
    requires Valid(st)
    ensures Valid(st')
    ensures stripeId in st'.aliases && uniqueId in st'.aliases
    ensures st'.aliases[stripeId] == st'.aliases[uniqueId]
    ensures st'.aliases[stripeId] !in st.records
    ensures Lookup(st', stripeId) == Some(NewSession(uniqueId, stripeId, email, now))
    ensures Lookup(st', uniqueId) == Some(NewSession(uniqueId, stripeId, email, now))
    ensures forall k | k != stripeId && k != uniqueId :: Lookup(st', k) == Lookup(st, k)
    ensures forall r | r in st.records :: r in st'.records && st'.records[r] == st.records[r]
  {
    var rid := st.next;
    Store(st.aliases[stripeId := rid][uniqueId := rid],
          st.records[rid := NewSession(uniqueId, stripeId, email, now)],
          st.next + 1)
  }

  /** The reply of `POST /create-checkout-session`. */
  datatype CheckoutReply = CheckoutCreated(id: string, uniqueId: string) | CheckoutFailed500

  datatype CheckoutResult = CheckoutResult(store: Store, reply: CheckoutReply)

  /** The checkout route after the gateway call returns. `gateway` is the
      gateway's answer: the new checkout-session id, or None when the call
      threw. A failed call answers 500 and stores nothing. */
  function CreateCheckout(st: Store, uniqueId: string, gateway: Option<string>,
                          email: Option<string>, now: Time): (r: CheckoutResult)
    requires Valid(st)
    ensures Valid(r.store)
    ensures gateway.None? ==> r.store == st && r.reply == CheckoutFailed500
    ensures gateway.Some? ==>
      && r.reply == CheckoutCreated(gateway.value, uniqueId)
      && Lookup(r.store, gateway.value) == Some(NewSession(uniqueId, gateway.value, email, now))
      && Lookup(r.store, uniqueId) == Lookup(r.store, gateway.value)
      && (forall k | k != gateway.value && k != uniqueId :: Lookup(r.store, k) == Lookup(st, k))
    ensures gateway.Some? ==>
      && gateway.value in r.store.aliases && uniqueId in r.store.aliases
      && r.store.aliases[gateway.value] == r.store.aliases[uniqueId]
      && r.store.aliases[gateway.value] !in st.records
      && (forall q | q in st.records :: q in r.store.records && r.store.records[q] == st.records[q])
  {
    match gateway
    case None => CheckoutResult(st, CheckoutFailed500)
    case Some(stripeId) =>
      CheckoutResult(Create(st, stripeId, uniqueId, email, now), CheckoutCreated(stripeId, uniqueId))
  }
}

=== FILE: skillcheck.dfy ===
/** `GET /check-neymar-skill?session_id=…`, the gate that reveals the outcome.

    The missing-id branch writes its 400 but does not return, so the handler
    goes on to the lookup and attempts a second write. The model keeps the
    sequence of writes the handler attempts; the client receives the first.
 */
module SkillCheck {
  import opened Sessions

  datatype SkillReply =
    | MissingId400
    | SkillNotFound404
    | NotCompleted400(status: Status)
    | SkillResult(hasSkill: Option<bool>)

  /** The query parameter as JavaScript tests it: absent and "" are falsy. */
  predicate HasId(query: Option<string>) {
    query.Some? && query.value != ""
  }

  /** The reply of the lookup part (lines after the id test). An absent query
      parameter finds nothing. */
  function Gate(st: Store, query: Option<string>): (r: SkillReply)
    ensures !r.MissingId400?
    ensures r.SkillNotFound404? <==> query.None? || Lookup(st, query.value).None?
    ensures r.NotCompleted400? <==>
      query.Some? && Lookup(st, query.value).Some? && Lookup(st, query.value).value.status != Completed
    ensures r.NotCompleted400? ==> r.status == Lookup(st, query.value).value.status
    ensures r.SkillResult? <==>
      query.Some? && Lookup(st, query.value).Some? && Lookup(st, query.value).value.status == Completed
    ensures r.SkillResult? ==> r.hasSkill == Lookup(st, query.value).value.hasSkill
  {
    if query.None? then SkillNotFound404
    else match Lookup(st, query.value)
      case None => SkillNotFound404
      case Some(ps) =>
        if ps.status != Completed then NotCompleted400(ps.status) else SkillResult(ps.hasSkill)
  }

  /** Every write the handler attempts, in order. */
  function Writes(st: Store, query: Option<string>): (w: seq<SkillReply>)
    ensures |w| == (if HasId(query) then 1 else 2)
    ensures !HasId(query) ==> w[0] == MissingId400 && w[1] == Gate(st, query)
    ensures HasId(query) ==> w == [Gate(st, query)]
    ensures forall i | 0 < i < |w| :: !w[i].MissingId400?
  {
    (if HasId(query) then [] else [MissingId400]) + [Gate(st, query)]
  }

  /** The reply the client receives: the handler's first write. */
  function CheckSkill(st: Store, query: Option<string>): (r: SkillReply)
    ensures r.MissingId400? <==> !HasId(query)
    ensures HasId(query) ==>
      (r.SkillNotFound404? <==> Lookup(st, query.value).None?)
    ensures HasId(query) && Lookup(st, query.value).Some? ==>
      var s := Lookup(st, query.value).value;
      && (s.status != Completed ==> r == NotCompleted400(s.status))
      && (s.status == Completed ==> r == SkillResult(s.hasSkill))
    ensures r.SkillResult? ==> HasId(query) && Lookup(st, query.value).value.status == Completed
  {
    Writes(st, query)[0]
  }
}

=== FILE: system.dfy ===
/** The whole server as a sequence of events.

    The routes run one at a time; the only overlap is a status poll whose
    gateway call is outstanding and a completion timer that has been armed but
    has not fired. Both are kept in the state, so any interleaving of requests,
    gateway answers and timer firings is a sequence of `Event`s.
 */
module Server {
  import opened Sessions
  import opened PostPayment
  import opened Webhook
  import opened StatusPoll
  import opened SkillCheck

  datatype Event =
    | Checkout(uniqueId: string, gateway: Option<string>, email: Option<string>, now: Time)
    | WebhookDelivery(delivery: Delivery, coin: bool, now: Time)
    | PollRequest(key: string)
    | GatewayReturns(poll: nat, answer: GatewayAnswer, coin: bool)
    | TimerFires(timer: nat, now: Time)
    | SkillQuery(query: Option<string>)

  datatype Reply =
    | CheckoutR(c: CheckoutReply)
    | WebhookR(w: WebhookReply)
    | StatusR(s: StatusReply)
    | SkillR(k: SkillReply)
    | Silent                            // a gateway call still outstanding, or a timer

  /** The table, the objects held by suspended polls, and the armed timers. */
  datatype Sys = Sys(store: Store, polls: seq<RecId>, timers: seq<RecId>)

  datatype StepResult = StepResult(sys: Sys, reply: Reply, actions: seq<Action>)

  const Init: Sys := Sys(Empty, [], [])

  function RemoveAt<T>(s: seq<T>, i: nat): seq<T>
    requires i < |s|
  {
    s[..i] + s[i + 1..]
  }

  /** What the server state promises about every session object. */
  predicate WellFormed(s: Session) {
    && (s.status == Pending ==> s.hasSkill.None? && s.completedAt.None?)
    && (s.status == Processing ==> s.hasSkill.Some? && s.completedAt.None?)
    && (s.status == Completed ==> s.hasSkill.Some? && s.completedAt.Some?)
  }

  ghost predicate Inv(sys: Sys) {
    && Valid(sys.store)
    && (forall r | r in sys.store.records :: WellFormed(sys.store.records[r]))
    && (forall i | 0 <= i < |sys.polls| :: sys.polls[i] in sys.store.records)
    && (forall i | 0 <= i < |sys.timers| ::
          && sys.timers[i] in sys.store.records
          && sys.store.records[sys.timers[i]].status != Pending
          && sys.store.records[sys.timers[i]].hasSkill.Some?)
    && (forall i, j | 0 <= i < j < |sys.timers| :: sys.timers[i] != sys.timers[j])
  }

  function Step(sys: Sys, ev: Event): StepResult
    requires Inv(sys)
  {
    match ev
    case Checkout(uid, gw, email, now) =>
      var r := CreateCheckout(sys.store, uid, gw, email, now);
      StepResult(sys.(store := r.store), CheckoutR(r.reply), [])
    case WebhookDelivery(d, coin, now) =>
      var r := HandleWebhook(sys.store, d, coin, now);
      StepResult(sys.(store := r.store), WebhookR(r.reply), r.actions)
    case PollRequest(key) =>
      (match PollBegin(sys.store, key)
       case UnknownSession => StepResult(sys, StatusR(StatusNotFound404), [])
       case AnswerNow(rid) => StepResult(sys, StatusR(View(sys.store.records[rid])), [])
       case AwaitGateway(rid) => StepResult(sys.(polls := sys.polls + [rid]), Silent, []))
    case GatewayReturns(i, answer, coin) =>
      if i < |sys.polls| then
        var rid := sys.polls[i];
        var r := PollResume(sys.store, rid, answer, coin);
        StepResult(Sys(r.store, RemoveAt(sys.polls, i),
                       if r.timerArmed then sys.timers + [rid] else sys.timers),
                   StatusR(View(r.store.records[rid])), [])
      else StepResult(sys, Silent, [])
    case TimerFires(i, now) =>
      if i < |sys.timers| then
        StepResult(Sys(TimerFire(sys.store, sys.timers[i], now), sys.polls, RemoveAt(sys.timers, i)),
                   Silent, [])
      else StepResult(sys, Silent, [])
    case SkillQuery(q) => StepResult(sys, SkillR(CheckSkill(sys.store, q)), [])
  }

  function Run(sys: Sys, evs: seq<Event>): Sys
    requires Inv(sys)
    decreases |evs|
  {
    if evs == [] then sys
    else
      StepPreservesInv(sys, evs[0]);
      Run(Step(sys, evs[0]).sys, evs[1..])
  }

  lemma InitInv()
    ensures Inv(Init)
  {
    EmptyValid();
  }

  /** Every kind of event keeps the invariant. */
  lemma StepPreservesInv(sys: Sys, ev: Event)
    requires Inv(sys)
    ensures Inv(Step(sys, ev).sys)
  {
    match ev
    case Checkout(uid, gw, email, now) => CheckoutPreservesInv(sys, uid, gw, email, now);
    case WebhookDelivery(d, coin, now) => WebhookPreservesInv(sys, d, coin, now);
    case PollRequest(key) =>
    case GatewayReturns(i, answer, coin) =>
      if i < |sys.polls| { ResumePreservesInv(sys, i, answer, coin); }
    case TimerFires(i, now) =>
      if i < |sys.timers| { TimerPreservesInv(sys, i, now); }
    case SkillQuery(q) =>
  }

  // The per-event cases of StepPreservesInv.

  lemma CheckoutPreservesInv(sys: Sys, uid: string, gw: Option<string>, email: Option<string>, now: Time)
    requires Inv(sys)
    ensures Inv(Step(sys, Checkout(uid, gw, email, now)).sys)
  {
  }

  lemma WebhookPreservesInv(sys: Sys, d: Delivery, coin: bool, now: Time)
    requires Inv(sys)
    ensures Inv(Step(sys, WebhookDelivery(d, coin, now)).sys)
  {
    var st := sys.store;
    var r := HandleWebhook(st, d, coin, now);
    assert Step(sys, WebhookDelivery(d, coin, now)).sys == sys.(store := r.store);
    if d.SignatureRejected? || Lookup(st, d.event.data.id).None? {
      assert r.store == st;
    } else {
      var id := d.event.data.id;
      var rid := st.aliases[id];
      var ps := st.records[rid];
      if d.event.eventType == CheckoutCompletedType {
        var done := ps.(status := Completed, completedAt := Some(now), hasSkill := Some(coin));
        assert WellFormed(done);
        assert r.store == Put(st, rid, done);
        PutPreservesInv(sys, rid, done);
      } else if d.event.eventType == CheckoutExpiredType {
        var gone := ps.(status := Expired);
        assert WellFormed(gone);
        assert r.store == Put(st, rid, gone);
        PutPreservesInv(sys, rid, gone);
      } else {
        assert r.store == st;
      }
    }
  }

  /** An in-place write of a well-formed session keeps the invariant, provided
      it does not put an object with an armed timer back to pending or drop
      its outcome. */
  lemma PutPreservesInv(sys: Sys, rid: RecId, s: Session)
    requires Inv(sys) && rid in sys.store.records && WellFormed(s)
    requires rid in sys.timers ==> s.status != Pending && s.hasSkill.Some?
    ensures Inv(sys.(store := Put(sys.store, rid, s)))
  {
    var st' := Put(sys.store, rid, s);
    forall i | 0 <= i < |sys.timers|
      ensures st'.records[sys.timers[i]].status != Pending && st'.records[sys.timers[i]].hasSkill.Some?
    {
      if sys.timers[i] == rid { assert rid in sys.timers; }
    }
  }

  lemma ResumePreservesInv(sys: Sys, i: nat, answer: GatewayAnswer, coin: bool)
    requires Inv(sys) && i < |sys.polls|
    ensures Inv(Step(sys, GatewayReturns(i, answer, coin)).sys)
  {
    var rid := sys.polls[i];
    var r := PollResume(sys.store, rid, answer, coin);
    DropPollPreservesInv(sys, i);
    var sys1 := sys.(polls := RemoveAt(sys.polls, i));
    if r.timerArmed {
      var busy := sys.store.records[rid].(status := Processing, hasSkill := Some(coin));
      // the object was pending, so no armed timer holds it yet
      assert rid !in sys1.timers;
      PutPreservesInv(sys1, rid, busy);
      var sys2 := sys1.(store := Put(sys1.store, rid, busy));
      ArmTimerPreservesInv(sys2, rid);
      assert Step(sys, GatewayReturns(i, answer, coin)).sys == sys2.(timers := sys2.timers + [rid]);
    } else {
      assert Step(sys, GatewayReturns(i, answer, coin)).sys == sys1;
    }
  }

  /** Forgetting a poll whose gateway call has returned keeps the invariant. */
  lemma DropPollPreservesInv(sys: Sys, i: nat)
    requires Inv(sys) && i < |sys.polls|
    ensures Inv(sys.(polls := RemoveAt(sys.polls, i)))
  {
    var polls' := RemoveAt(sys.polls, i);
    forall j | 0 <= j < |polls'|
      ensures polls'[j] == sys.polls[if j < i then j else j + 1]
    {
    }
  }

  /** Arming a timer for a non-pending object with an outcome and no timer yet
      keeps the invariant. */
  lemma ArmTimerPreservesInv(sys: Sys, rid: RecId)
    requires Inv(sys) && rid in sys.store.records && rid !in sys.timers
    requires sys.store.records[rid].status != Pending && sys.store.records[rid].hasSkill.Some?
    ensures Inv(sys.(timers := sys.timers + [rid]))
  {
    var timers' := sys.timers + [rid];
    forall j, k | 0 <= j < k < |timers'|
      ensures timers'[j] != timers'[k]
    {
      if k == |sys.timers| { assert sys.timers[j] in sys.timers; }
    }
  }

  lemma TimerPreservesInv(sys: Sys, i: nat, now: Time)
    requires Inv(sys) && i < |sys.timers|
    ensures Inv(Step(sys, TimerFires(i, now)).sys)
  {
    var rid := sys.timers[i];
    var done := sys.store.records[rid].(status := Completed, completedAt := Some(now));
    assert WellFormed(done);
    PutPreservesInv(sys, rid, done);
    var sys1 := sys.(store := Put(sys.store, rid, done));
    DropTimerPreservesInv(sys1, i);
    assert Step(sys, TimerFires(i, now)).sys == sys1.(timers := RemoveAt(sys1.timers, i));
  }

  /** Forgetting a timer that has fired keeps the invariant. */
  lemma DropTimerPreservesInv(sys: Sys, i: nat)
    requires Inv(sys) && i < |sys.timers|
    ensures Inv(sys.(timers := RemoveAt(sys.timers, i)))
  {
    var timers' := RemoveAt(sys.timers, i);
    forall j | 0 <= j < |timers'|
      ensures timers'[j] == sys.timers[if j < i then j else j + 1]
    {
    }
  }

  /** The invariant holds after any sequence of events from any state that
      satisfies it, and so in every reachable state. */
  lemma {:induction false} RunPreservesInv(sys: Sys, evs: seq<Event>)
    requires Inv(sys)
    ensures Inv(Run(sys, evs))
    decreases |evs|
  {
    if evs != [] {
      StepPreservesInv(sys, evs[0]);
      RunPreservesInv(Step(sys, evs[0]).sys, evs[1..]);
    }
  }

  /** A skill check that passes the gate always reveals a drawn outcome, in
      every reachable state. */
  lemma RevealedOutcomeIsDrawn(evs: seq<Event>, q: Option<string>)
    ensures var sys := (InitInv(); Run(Init, evs));
            CheckSkill(sys.store, q).SkillResult? ==> CheckSkill(sys.store, q).hasSkill.Some?
  {
    InitInv();
    RunPreservesInv(Init, evs);
  }

  /** A status poll never reports a completed session without its outcome and
      its completion time. */
  lemma CompletedViewIsStamped(sys: Sys, ev: Event)
    requires Inv(sys)
    ensures var r := Step(sys, ev).reply;
            r.StatusR? && r.s.StatusBody? && r.s.status == Completed ==>
              r.s.hasSkill.Some? && r.s.completedAt.Some?
  {
    StepPreservesInv(sys, ev);
  }

  /** The poller's guard: a gateway answer for an object that already has an
      armed timer arms no second one and draws nothing. */
  lemma NoSecondTimer(sys: Sys, i: nat, answer: GatewayAnswer, coin: bool)
    requires Inv(sys) && i < |sys.polls| && sys.polls[i] in sys.timers
    ensures var sys' := Step(sys, GatewayReturns(i, answer, coin)).sys;
            sys'.store == sys.store && sys'.timers == sys.timers
  {
  }

  /** The armed timers of any reachable state name distinct objects: the
      poller schedules at most one completion per session at a time. */
  lemma {:induction false} TimersDistinct(evs: seq<Event>)
    ensures var sys := (InitInv(); Run(Init, evs));
            forall i, j | 0 <= i < j < |sys.timers| :: sys.timers[i] != sys.timers[j]
  {
    InitInv();
    RunPreservesInv(Init, evs);
  }
}

=== FILE: webhook.dfy ===
/** The gateway webhook: signature verification result, dispatch by event
    type, and the handlers that write to the session table.

    Once the signature is verified the handler runs to its reply without a real
    suspension (every awaited helper after verification resolves at once), so
    one delivery is one atomic step here. The random draw and the clock are
    parameters.
 */
module Webhook {
  import opened Sessions
  import opened PostPayment

  const CheckoutCompletedType := "checkout.session.completed"
  const CheckoutExpiredType := "checkout.session.expired"
  const PaymentSucceededType := "payment_intent.succeeded"
  const PaymentFailedType := "payment_intent.payment_failed"

  /** The event's `data.object`: a checkout session or a payment intent. */
  datatype EventObject = EventObject(id: string, customerDetailsEmail: Option<string>)

  datatype StripeEvent = StripeEvent(eventType: string, data: EventObject)

  /** What signature verification made of a delivery. */
  datatype Delivery = SignatureRejected | Verified(event: StripeEvent)

  datatype WebhookReply = WebhookError400 | Received

  datatype Handled = Handled(store: Store, actions: seq<Action>)

  datatype WebhookResult = WebhookResult(store: Store, reply: WebhookReply, actions: seq<Action>)

  /** `handleCheckoutCompleted`. No status guard: a known session is marked
      completed, stamped and given a fresh draw whatever its status was, and the
      post-payment actions run for it. An unknown id changes nothing. */
  function CheckoutCompleted(st: Store, obj: EventObject, coin: bool, now: Time): (h: Handled)
    ensures Valid(st) ==> Valid(h.store)
    ensures Lookup(st, obj.id).None? ==> h.store == st && h.actions == []
    ensures Lookup(st, obj.id).Some? ==> Lookup(h.store, obj.id).Some?
    ensures Lookup(st, obj.id).Some? ==>
      var old_ := Lookup(st, obj.id).value;
      var s := Lookup(h.store, obj.id).value;
      && s.status == Completed
      && s.completedAt == Some(now)
      && s.hasSkill == Some(coin)
      && SameIdentity(s, old_)
      && h.actions == Actions(s, obj.customerDetailsEmail)
      && (UnlockSpecialContent(s.stripeSessionId) in h.actions <==> coin)
      && h.store.aliases == st.aliases
      && h.store.records.Keys == st.records.Keys
      && (forall q | q in st.records && q != st.aliases[obj.id] :: h.store.records[q] == st.records[q])
      && (forall k | !(k in st.aliases && st.aliases[k] == st.aliases[obj.id]) ::
            Lookup(h.store, k) == Lookup(st, k))
      && (forall k | k in st.aliases && st.aliases[k] == st.aliases[obj.id] ::
            Lookup(h.store, k) == Some(s))
  {
    match Lookup(st, obj.id)
    case None => Handled(st, [])
    case Some(ps) =>
      var done := ps.(status := Completed, completedAt := Some(now), hasSkill := Some(coin));
      Handled(Put(st, st.aliases[obj.id], done), Actions(done, obj.customerDetailsEmail))
  }

  /** `handleCheckoutExpired`: a known session becomes expired whatever its
      status was; nothing else in it changes. An unknown id changes nothing. */
  function CheckoutExpired(st: Store, obj: EventObject): (st': Store)
    ensures Valid(st) ==> Valid(st')
    ensures Lookup(st, obj.id).None? ==> st' == st
    ensures Lookup(st, obj.id).Some? ==>
      && st'.aliases == st.aliases
      && st'.records.Keys == st.records.Keys
      && (forall q | q in st.records && q != st.aliases[obj.id] :: st'.records[q] == st.records[q])
      && Lookup(st', obj.id) == Some(Lookup(st, obj.id).value.(status := Expired))
      && (forall k | !(k in st.aliases && st.aliases[k] == st.aliases[obj.id]) ::
            Lookup(st', k) == Lookup(st, k))
  {
    match Lookup(st, obj.id)
    case None => st
    case Some(ps) => Put(st, st.aliases[obj.id], ps.(status := Expired))
  }

  /** The switch on the event type. Payment-intent events and unrecognised
      types only log. */
  function Dispatch(st: Store, ev: StripeEvent, coin: bool, now: Time): (h: Handled)
    ensures Valid(st) ==> Valid(h.store)
    ensures ev.eventType != CheckoutCompletedType && ev.eventType != CheckoutExpiredType ==>
      h.store == st && h.actions == []
    ensures ev.eventType == CheckoutExpiredType ==> h.actions == []
    ensures h.actions != [] ==> ev.eventType == CheckoutCompletedType && Lookup(st, ev.data.id).Some?
    ensures ev.eventType == CheckoutCompletedType ==> h == CheckoutCompleted(st, ev.data, coin, now)
    ensures ev.eventType == CheckoutExpiredType ==> h.store == CheckoutExpired(st, ev.data)
  {
    if ev.eventType == CheckoutCompletedType then CheckoutCompleted(st, ev.data, coin, now)
    else if ev.eventType == CheckoutExpiredType then Handled(CheckoutExpired(st, ev.data), [])
    else Handled(st, [])
  }

  /** `POST /webhook/stripe`: a rejected signature answers 400 and runs no
      handler; every verified delivery is acknowledged, whatever its type and
      whether or not its session is known. */
  function HandleWebhook(st: Store, d: Delivery, coin: bool, now: Time): (r: WebhookResult)
    ensures Valid(st) ==> Valid(r.store)
    ensures r.reply == WebhookError400 <==> d.SignatureRejected?
    ensures d.SignatureRejected? ==> r.store == st && r.actions == []
    ensures d.Verified? ==> Handled(r.store, r.actions) == Dispatch(st, d.event, coin, now)
    ensures d.Verified? && d.event.eventType in {PaymentSucceededType, PaymentFailedType} ==>
      r.store == st && r.actions == []
    ensures d.Verified? && d.event.eventType == CheckoutCompletedType && Lookup(st, d.event.data.id).Some? ==>
      && Lookup(r.store, d.event.data.id).Some?
      && Lookup(r.store, d.event.data.id).value.status == Completed
      && Lookup(r.store, d.event.data.id).value.completedAt == Some(now)
      && Lookup(r.store, d.event.data.id).value.hasSkill == Some(coin)
      && r.actions == Actions(Lookup(r.store, d.event.data.id).value, d.event.data.customerDetailsEmail)
    ensures d.Verified? && d.event.eventType == CheckoutExpiredType && Lookup(st, d.event.data.id).Some? ==>
      Lookup(r.store, d.event.data.id) == Some(Lookup(st, d.event.data.id).value.(status := Expired))
    ensures d.Verified? && Lookup(st, d.event.data.id).None? ==> r.store == st && r.actions == []
  {
    match d
    case SignatureRejected => WebhookResult(st, WebhookError400, [])
    case Verified(ev) =>
      var h := Dispatch(st, ev, coin, now);
      WebhookResult(h.store, Received, h.actions)
  }

  /** Replaying a completed-checkout delivery is not a no-op: the second
      delivery draws again, restamps the completion time and reruns the
      post-payment actions. */
  lemma ReplayRedraws(st: Store, obj: EventObject, c1: bool, t1: Time, c2: bool, t2: Time)
    requires Valid(st) && Lookup(st, obj.id).Some?
    ensures var h1 := CheckoutCompleted(st, obj, c1, t1);
            var h2 := CheckoutCompleted(h1.store, obj, c2, t2);
            && Lookup(h2.store, obj.id).value.hasSkill == Some(c2)
            && Lookup(h2.store, obj.id).value.completedAt == Some(t2)
            && h2.actions != []
  {
  }

  /** A completed-checkout delivery after an expiry still completes the
      session: expired is not terminal in the code. */
  lemma CompletionOverridesExpiry(st: Store, obj: EventObject, coin: bool, now: Time)
    requires Valid(st) && Lookup(st, obj.id).Some?
    ensures Lookup(CheckoutCompleted(CheckoutExpired(st, obj), obj, coin, now).store, obj.id).value.status
            == Completed
  {
  }
}
